=== FILE: README.md ===
# Wallet session of the GreenFintech demo page, in Dafny

The demo's browser page (`frontend/js/app.js`) connects to an injected wallet
provider (MetaMask), tracks the connected account and the network, keeps a
`web3.eth.Contract` handle for the green-loan contract, and guards every
contract button. This project models that session logic as pure functions
over an immutable `Session` record and proves what the page promises about it.

- `Session` (session.dfy) holds the page's module-level state: whether `web3`
  exists, whether `contract` is bound, `currentAccount` (verbatim; the page
  never lower-cases it), the connection-status label, the network label, the
  enabled state of the contract buttons and of the connect button, and the
  debounce timestamp of `handleAccountsChanged`.
- Each handler is a function over the session.
  - `initApp`, `connectWallet`, `handleAccountsChanged`, `handleChainChanged`
    (and its delayed half) and `initContract` return a `Step`: the new session
    together with the requests it sent out (`Effect`: account request,
    chain-id query, chain switch, ABI fetch, user notice).
  - `disconnectWallet`, `updateNetworkInfo`, the synchronous half of
    `handleChainChanged` and the delayed `finally` of `connectWallet` send
    nothing out and return the new `Session` alone.
- Whatever the provider, the clock or the ABI fetch returns is a parameter:
  - the accounts list;
  - the chain id, or the hex string of a `chainChanged` event;
  - whether the switch to chain 1337 succeeded;
  - `Date.now()`;
  - whether the ABI fetch and the contract construction succeeded;
  - what `admin()` returned, and whether `web3.eth.getAccounts()` answered.
- chain.dfy models `parseInt(s, 16)` in full: white space, sign, optional
  `0x`, longest digit run, NaN. It also models the chain-id → network-name
  table and `${chainId}` rendering.
- validation.dfy models the `invalid-input` marking of `validateInputs`.
  actions.dfy models the checks each contract button makes before calling the
  contract. trace.dfy runs sequences of events and states the properties that
  span several of them.

Facts about the page's code that the model keeps:
- There is no epoch or sequence counter, so stale asynchronous results are
  not discarded.
- Addresses are never lower-cased; only the admin check compares them ignoring
  case.
- The ABI is fetched again on every `initContract` call; nothing is cached.
- `handleAccountsChanged` rebinds the contract even when the reported address
  equals the held one.
- The "Switching account..." label is overwritten in the same synchronous step,
  so it is never left showing.
- After a switch to chain 1337, the label stays "Switching network...".
  `updateNetworkInfo` writes only the warning and never a "Connected" status
  (`Session.LocalChainKeepsSwitchingLabel`).

The page stores the debounce timestamp on `this` inside a plain function.
- Invoked as the provider's `accountsChanged` listener, `this` is the provider
  object.
- Invoked directly from `connectWallet`, `this` is the global object (as a classic script; in a module or strict-mode script `this` is undefined and the handler throws).
- So the two paths may keep separate timestamps. The model keeps one explicit
  field. See "Left out".

## Model

| member | source | states |
|---|---|---|
| Session.Disconnect | frontend/js/app.js:210-227 | after a disconnect there is no account and no contract, the status is "Not Connected", the wallet panel is hidden, the actions and the connect spinner are off; Web3, the network label and the debounce timestamp are kept |
| Session.DisconnectIdempotent | frontend/js/app.js:210-227 | disconnecting twice equals disconnecting once, and any session satisfying the disconnected description is exactly the disconnect result |
| Session.InitContract | frontend/js/app.js:366-387 | without Web3 nothing happens and nothing is fetched; otherwise the ABI is fetched on every call; success binds the contract and enables the actions and changes nothing else, failure keeps the previous contract and session unchanged |
| Session.HandleAccountsChanged | frontend/js/app.js:175-207 | a debounced event changes nothing, not even the timestamp; an accepted one records the timestamp; an accepted empty list is exactly a disconnect; an accepted non-empty list adopts accounts[0] verbatim, shows "Connected" and the wallet panel, and attempts a rebind, enabling the actions exactly when Web3 exists and the rebind succeeds, and keeping them as they were otherwise |
| Session.SameAccountStillRebinds | frontend/js/app.js:182-202 | re-reporting the held address still refetches the ABI and rebinds; the handler compares no addresses |
| Session.UpdateNetworkInfo | frontend/js/app.js:252-285 | the network label becomes the lookup's name for the id; every id but 1337 sets the wrong-network status; 1337 leaves the status as it was; nothing else changes |
| Session.BeginChainChange | frontend/js/app.js:230-236 | the synchronous half of a chain change sets only the "Switching network..." status |
| Session.SettleChainChange | frontend/js/app.js:239-248 | the delayed half never touches the account or the timestamp, and rebinds exactly when an account is held; apart from Web3, the contract and the actions, which the rebind sets, the session is exactly what updateNetworkInfo leaves: the network label, the wrong-network warning for ids other than 1337, every other field kept |
| Session.HandleChainChanged | frontend/js/app.js:230-249 | the hex string is read with parseInt(…, 16); the account is unchanged; the status ends as the warning for ids other than 1337 and as "Switching network..." for 1337; a rebind is attempted if and only if an account is held |
| Session.ChainChangeNeverDisconnects | frontend/js/app.js:230-248 | a chain change keeps the account, keeps a bound contract bound and keeps the wallet panel, whatever the chain and the load outcome |
| Session.LocalChainKeepsSwitchingLabel | frontend/js/app.js:230-285 | a change to "0x539" leaves the status "Switching network..." and labels the network "Local Blockchain" |
| Session.InitApp | frontend/js/app.js:31-79 | with a provider Web3 is created and the network shown when the chain id is known, the status becomes the wrong-network warning for a known id other than 1337 and is otherwise left as it was; without one the status is "not detected" and the install notice is shown; the actions and wallet panel start hidden; the network label is kept when no chain id is known; account, contract, debounce timestamp and connect button are untouched |
| Session.RestoreConnectButton | frontend/js/app.js:160-167 | the delayed finally of connectWallet re-enables the connect button exactly when no account is held (empty string counts as none) |
| Session.ConnectWallet | frontend/js/app.js:129-172 | without a provider only the install notice is shown; otherwise accounts are requested first; the account, contract, status and timestamp change only when the chain is not 1337, the switch failed and accounts were granted, and then accounts[0] is adopted with the manual-switch notice; the connect button stays busy exactly when an account is held; without direct adoption only Web3 and the connect button change; with it, the session is what handleAccountsChanged leaves, followed by the delayed finally |
| Session.ConnectOnLocalChainWaitsForEvent | frontend/js/app.js:143-156 | on chain 1337, or after a successful switch, connectWallet leaves account, contract and status alone, waiting for the provider's own event |
| Chain.ParseHexRoundTrip | frontend/js/app.js:232 | parseInt of "0x" followed by the hex digits of n, with any leading white space and any non-digit trailing text, is n |
| Chain.HexValueOfHex | frontend/js/app.js:232 | reading back the hex digits of n gives n |
| Chain.LocalChainHexIsLocalChainId | frontend/js/app.js:288-293 | the "0x539" sent to wallet_switchEthereumChain parses to 1337, the id the page checks for |
| Chain.NetworkNameSpec | frontend/js/app.js:252-285 | the lookup is total; the six known ids get their own names, every other id (NaN included) gets "Unknown Network (<id>)" |
| Chain.NetworkNameInjective | frontend/js/app.js:255-276 | two ids with the same network label are the same id |
| Chain.RenderInjective | frontend/js/app.js:275 | the template-literal rendering of ids, NaN included, is injective |
| Text.Utf16LengthOfBmp | frontend/js/app.js:88 | the JavaScript length of a string without astral characters is its character count |
| Text.SameIgnoringCaseCharwise | frontend/js/app.js:327 | two strings compare equal ignoring case iff they have equal length and agree at each position up to ASCII case |
| Chain.HexSameIgnoringCase | frontend/js/app.js:327 | two hexadecimal strings of equal length compare equal ignoring case iff they denote the same number |
| Validation.MarkAfterInput | frontend/js/app.js:82-104 | a number field is marked iff its value is non-empty and negative (this test runs last and decides); a non-number address field is marked iff its value is non-empty, lacks "0x" and is not 42 code units long; other fields keep their mark |
| Validation.AddressTestIsLoose | frontend/js/app.js:87-93 | any value starting with "0x", any value of 42 code units, and the empty value pass the address test |
| Validation.FortyTwoCharactersPass | frontend/js/app.js:88 | a 42-character value without astral characters passes even without "0x" |
| Validation.MarkIsIdempotent | frontend/js/app.js:84-102 | a repeated input event leaves the mark where the first one set it |
| Actions.Dispatch | frontend/js/app.js:419-838 | without a contract every action refuses before any contract call; getAdminAddress checks only the contract, the others also Web3; an empty required field refuses next; every action but getAdminAddress then asks web3.eth.getAccounts() and makes no contract call if it throws; otherwise exactly the action's contract call is issued |
| Actions.DispatchIgnoresAccount | frontend/js/app.js:419-838 | these actions never consult currentAccount: the outcome is the same whichever account, or none, is held |
| Actions.TransferEthToContract | frontend/js/app.js:311-359 | without a truthy account and a contract, or with an amount that is NaN or not positive, no contract call is made; the deposit is sent iff the admin() answer equals the held account ignoring case and toWei accepts the amount; a rejected conversion refuses with no deposit; the admin lookup is always the first call |
| Actions.AdminCheckIgnoresCase | frontend/js/app.js:325-330 | the admin check accepts the admin address in any ASCII case and accepts the held account itself; the deposit then follows exactly when toWei accepts the amount |
| Actions.AdminCheckComparesAddressValues | frontend/js/app.js:325-330 | for "0x"-prefixed hexadecimal addresses of equal length, the deposit is sent iff the admin address and the held account denote the same number and toWei accepts the amount |
| Trace.InitAppIsConsistent | frontend/js/app.js:31-79 | after initApp, no contract is bound, the actions are disabled and the wallet panel hidden |
| Trace.ApplyKeepsConsistent | frontend/js/app.js:129-249 | every handler preserves: contract bound only with Web3 and an account; actions enabled iff contract bound; wallet panel shown iff an account is recorded |
| Trace.RunKeepsConsistent | frontend/js/app.js:129-249 | any sequence of events preserves that consistency |
| Trace.ReachableIsConsistent | frontend/js/app.js:31-249 | every session reachable from initApp is consistent |
| Trace.BurstIgnored | frontend/js/app.js:177-180 | after an event accepted at a truthy time t, any burst of account events stamped within 300 ms of t leaves the session unchanged; dropped events do not extend the window |
| Trace.FirstAcceptedWins | frontend/js/app.js:175-207 | the session after an accepted event followed by a burst inside its window is the session after that event alone |
| Trace.RepeatedDisconnect | frontend/js/app.js:210-227 | pressing disconnect any positive number of times gives the same session as pressing it once |
| Trace.EmptyAccountsIsDisconnect | frontend/js/app.js:203-206 | an accepted empty account list leaves the disconnect session, with the new timestamp recorded |

## Left out

- Session.HandleAccountsChanged: keeps a single debounce timestamp. The page's `this.lastAccountChange` lives on the provider object for provider events and on the global object for the direct call from `connectWallet`, so the page may not share one window across both paths.
- Session.InitContract: the ABI fetch and the contract construction are one atomic step with outcome `loadOk`. In the page they are asynchronous. A disconnect or account change landing while the fetch is pending, followed by the fetch completing and rebinding, is concurrency and not modelled.
- Session.ConnectWallet: the 300 ms delayed `finally` runs at the end of the call. In the page, provider events may arrive before it.
- Session.HandleChainChanged: the 500 ms delay is modelled only by splitting the handler into two events. The composed function runs the two halves back to back.
- Chain.ParseInt16: returns exact integers. JavaScript numbers round ids beyond 2^53, and from 1e21 on `${id}` uses exponent notation. Negative zero is identified with zero.
- Session.InitApp: takes the result of `web3.eth.getChainId()` as a plain integer. The library's own number type is outside the model.
- Session.ConnectWallet: takes the result of `web3.eth.getChainId()` as a plain integer too, so the strict `!==` test against 1337 (app.js:144-145) compares numbers. If the library returned a BigInt, that test would always hold and the switch would always be requested; the model cannot express that case.
- Text.Lower: lower-cases ASCII letters only. JavaScript's `toLowerCase` also maps non-ASCII letters, which an address never contains.
- Validation.MarkAfterInput: takes a number field's numeric value as a parameter (`number`). The browser reduces the field to a valid numeral before JavaScript's `<` converts it, and that floating-point conversion is not modelled.
- Actions.Dispatch: models the first contract call an action makes and nothing after it. The sender taken from `getAccounts()` is not recorded in the call, and an empty accounts list is not distinguished. The loop over loan records, result decoding and `showResult` formatting are not modelled. Neither are `parseFloat`, `parseInt`, `toWei`/`fromWei`, `toFixed` and `Date` rendering (floating point and library calls).
- Actions.TransferEthToContract: takes `parseFloat` of the amount as an optional real, with None for NaN. Infinity (from inputs such as "1e999") has no real value, so it is not represented; its only effect, a `toWei` rejection, is covered by `weiOk`. Which amounts `toWei` accepts (it rejects exponent renderings such as "1e-7") is a parameter, not modelled. The transaction result is not modelled.
- `showResult` HTML, its 5 s clearing timer, button texts and spinners, the injected CSS of `initValidation`, and page navigation (`setupPageNavigation`, the wrapped `initApp`): DOM only.
- `window.ethereum.request`, `fetch`, `new Web3` and `new web3.eth.Contract`: foreign I/O, represented by their outcomes.
- The green-loan contract's own rules (eligibility, points, verification): the contract is external.
- `scripts/deploy-green-loan.ts`, `scripts/verify-green-loan.ts` and `ignition/modules/DeployGreenLoan.ts`: Hardhat deployment tooling that only wraps library calls.

=== FILE: actions.dfy ===
/** The contract actions behind the page's buttons (frontend/js/app.js,
    `getAdminAddress` through `applyLoan`, and `transferEthToContract`), up
    to the contract calls they issue. Each action first checks that the
    session can reach the contract and that its required fields are filled,
    and refuses before contacting the contract when not. What the contract
    does with a call belongs to the contract and is not modelled. */
module Actions {
  import opened Wrappers
  import opened Text
  import opened Chain
  import opened Session

  /** A button press with the form fields it reads. */
  datatype Action =
    | GetAdminAddress
    | RegisterEnterprise(name: string, creditCode: string)
    | SubmitGreenData(baseline: string, actualData: string, dataType: string)
    | GetEnterpriseInfo
    | GetEnterpriseData(dataId: string)
    | CheckGreenLoanEligibility
    | GetEnterpriseLoan(loanId: string)
    | VerifyEnterprise(address: string)
    | VerifyGreenData(address: string, dataId: string)
    | GetRegisteredEnterprises
    | ApplyLoan(loanType: string)

  /** Why an action stops short, one per message the page shows. */
  datatype Refusal =
    | ContractNotInitialised // "合约未初始化": getAdminAddress without a contract
    | NotReady               // "合约未初始化或钱包未连接": no contract or no Web3
    | WalletNotConnected     // "请先连接钱包": transfer without account or contract
    | MissingInput           // a required field is empty
    | AccountsLookupFailed   // web3.eth.getAccounts() threw
    | InvalidAmount          // the transfer amount is NaN or not positive
    | AdminLookupFailed      // the admin() call threw
    | NotAdmin               // the connected account is not the admin
    | AmountNotConvertible   // web3.utils.toWei rejected the amount

  /** The contract methods the page invokes. */
  datatype ContractCall =
    | AdminQuery                           // admin()
    | Register(name: string, creditCode: string)
    | SubmitData(dataType: string)
    | EnterpriseInfo                       // getEnterpriseInfo()
    | DataCount                            // getEnterpriseDataCount(account)
    | DataRecord(dataId: string)           // getEnterpriseData(id)
    | LoanTypesInfo                        // getLoanTypesInfo()
    | LoanCount                            // getEnterpriseLoanCount(account)
    | LoanRecord(loanId: string)           // getEnterpriseLoan(id)
    | Verify(address: string)              // verifyEnterprise(address)
    | VerifyData(address: string, dataId: string)
    | RegisteredList                       // getRegisteredEnterprises()
    | ApplyForLoan(green: bool)            // applyForLoan(isGreenLoan)
    | AdminDeposit                         // adminDeposit() with value

  /** The contract calls an action issues, in order, and why it stopped short
      if it did. */
  datatype Outcome = Outcome(calls: seq<ContractCall>, refused: Option<Refusal>)

  /** The session check an action makes before anything else. Only
      `getAdminAddress` omits the Web3 check; none checks `currentAccount`. */
  predicate SessionReady(s: Session, a: Action)
  {
    s.contract && (a.GetAdminAddress? || s.web3)
  }

  /** The form check that follows the session check. */
  predicate InputMissing(a: Action)
  {
    match a
    case RegisterEnterprise(name, code) => name == "" || code == ""
    case SubmitGreenData(baseline, actual, dataType) => baseline == "" || actual == "" || dataType == ""
    case VerifyEnterprise(address) => address == ""
    case VerifyGreenData(address, dataId) => address == "" || dataId == ""
    case _ => false
  }

  /** The first contract call an action issues once both checks pass. An
      empty id field asks for a count instead of a record. */
  function FirstCall(a: Action): ContractCall
  {
    match a
    case GetAdminAddress => AdminQuery
    case RegisterEnterprise(name, code) => Register(name, code)
    case SubmitGreenData(_, _, dataType) => SubmitData(dataType)
    case GetEnterpriseInfo => EnterpriseInfo
    case GetEnterpriseData(id) => if id == "" then DataCount else DataRecord(id)
    case CheckGreenLoanEligibility => LoanTypesInfo
    case GetEnterpriseLoan(id) => if id == "" then LoanCount else LoanRecord(id)
    case VerifyEnterprise(address) => Verify(address)
    case VerifyGreenData(address, id) => VerifyData(address, id)
    case GetRegisteredEnterprises => RegisteredList
    case ApplyLoan(loanType) => ApplyForLoan(loanType == "green")
  }

  /** Whether the action asks the provider for its accounts before calling
      the contract: all but `getAdminAddress` take their sender from
      `web3.eth.getAccounts()`. */
  predicate LooksUpAccounts(a: Action)
  {
    !a.GetAdminAddress?
  }

  /** Pressing the button of `a`, where `accountsOk` says whether
      `web3.eth.getAccounts()` answered. The action refuses before any
      contract call when the session cannot reach the contract, when a
      required field is empty, or when the account lookup throws; otherwise it
      issues its contract call. */
  function Dispatch(s: Session, a: Action, accountsOk: bool): (r: Outcome)
    // fail fast: no contract, no call
    ensures !s.contract ==> r.calls == [] && r.refused.Some?
    ensures r.calls == [] <==> r.refused.Some?
    ensures r.refused == Some(ContractNotInitialised) <==> a.GetAdminAddress? && !s.contract
    ensures r.refused == Some(NotReady) <==> !a.GetAdminAddress? && !(s.contract && s.web3)
    ensures r.refused == Some(MissingInput) <==> SessionReady(s, a) && InputMissing(a)
    ensures r.refused == Some(AccountsLookupFailed) <==>
      SessionReady(s, a) && !InputMissing(a) && LooksUpAccounts(a) && !accountsOk
    ensures r.refused.None? ==> r.calls == [FirstCall(a)]
  {
    if !SessionReady(s, a) then
      Outcome([], Some(if a.GetAdminAddress? then ContractNotInitialised else NotReady))
    else if InputMissing(a) then Outcome([], Some(MissingInput))
    else if LooksUpAccounts(a) && !accountsOk then Outcome([], Some(AccountsLookupFailed))
    else Outcome([FirstCall(a)], None)
  }

  /** These actions take the sender from the provider, not from the session:
      whether an account is held, and which, changes nothing. */
  lemma DispatchIgnoresAccount(s: Session, a: Action, accountsOk: bool, account: Option<string>)
    ensures Dispatch(s.(account := account), a, accountsOk) == Dispatch(s, a, accountsOk)
  {}

  /** `transferEthToContract`, where `amount` is `parseFloat` of the amount
      field (None for NaN), `admin` is what `admin()` returned (None when the
      call threw) and `weiOk` says whether `web3.utils.toWei` accepted the
      amount's `toString()`. The checks run in the page's order: account and
      contract, then the amount, then the admin lookup, compared with the
      held account ignoring case, then the wei conversion; only then is the
      deposit sent. */
  function TransferEthToContract(s: Session, amount: Option<real>, admin: Option<string>, weiOk: bool): (r: Outcome)
    ensures !(HoldsAccount(s) && s.contract) ==> r == Outcome([], Some(WalletNotConnected))
    ensures HoldsAccount(s) && s.contract && !(amount.Some? && amount.value > 0.0) ==>
      r == Outcome([], Some(InvalidAmount))
    ensures AdminDeposit in r.calls <==>
      && HoldsAccount(s) && s.contract && amount.Some? && amount.value > 0.0
      && admin.Some? && SameIgnoringCase(admin.value, s.account.value) && weiOk
    ensures r.refused == Some(AmountNotConvertible) <==>
      && HoldsAccount(s) && s.contract && amount.Some? && amount.value > 0.0
      && admin.Some? && SameIgnoringCase(admin.value, s.account.value) && !weiOk
    ensures r.calls != [] ==> r.calls[0] == AdminQuery
    ensures r.refused.None? <==> AdminDeposit in r.calls
  {
    if !(HoldsAccount(s) && s.contract) then Outcome([], Some(WalletNotConnected))
    else if !(amount.Some? && amount.value > 0.0) then Outcome([], Some(InvalidAmount))
    else if admin.None? then Outcome([AdminQuery], Some(AdminLookupFailed))
    else if !SameIgnoringCase(admin.value, s.account.value) then Outcome([AdminQuery], Some(NotAdmin))
    else if !weiOk then Outcome([AdminQuery], Some(AmountNotConvertible))
    else Outcome([AdminQuery, AdminDeposit], None)
  }

  /** The admin comparison ignores ASCII case on both sides: an admin address
      reported in checksummed mixed case matches the same address held in
      lower case, and the other way round. */
  lemma AdminCheckIgnoresCase(s: Session, amount: Option<real>, admin: string, weiOk: bool)
    requires HoldsAccount(s) && s.contract && amount.Some? && amount.value > 0.0
    ensures TransferEthToContract(s, amount, Some(admin), weiOk).refused.None? <==>
      TransferEthToContract(s, amount, Some(Lower(admin)), weiOk).refused.None?
    ensures TransferEthToContract(s, amount, Some(s.account.value), weiOk).calls ==
      if weiOk then [AdminQuery, AdminDeposit] else [AdminQuery]
  {}

  /** For two well-formed addresses, "0x" followed by hexadecimal digits of
      equal length, the admin check sends the deposit exactly when they denote
      the same number: a checksummed and a lower-case spelling of one address
      match, and two different addresses never do. */
  lemma AdminCheckComparesAddressValues(s: Session, amount: Option<real>, admin: string, held: string, weiOk: bool)
    requires s.contract && amount.Some? && amount.value > 0.0
    requires s.account == Some("0x" + held) && |admin| == |held|
    requires forall i :: 0 <= i < |admin| ==> IsHexDigit(admin[i])
    requires forall i :: 0 <= i < |held| ==> IsHexDigit(held[i])
    ensures AdminDeposit in TransferEthToContract(s, amount, Some("0x" + admin), weiOk).calls
        <==> HexValue(admin) == HexValue(held) && weiOk
  {
    HexSameIgnoringCase(admin, held);
    SameIgnoringCaseCharwise(admin, held);
    SameIgnoringCaseCharwise("0x" + admin, "0x" + held);
    assert SameIgnoringCase("0x" + admin, "0x" + held) <==> SameIgnoringCase(admin, held) by {
      forall i | 0 <= i < |admin|
        ensures ("0x" + admin)[i + 2] == admin[i] && ("0x" + held)[i + 2] == held[i]
      {}
    }
  }
}

=== FILE: chain.dfy ===
/** Chain identifiers as the page sees them: the hexadecimal strings the wallet
    provider pushes (`chainChanged`), their conversion with JavaScript's
    `parseInt(s, 16)`, and the fixed lookup from a chain id to the network
    label shown to the user (frontend/js/app.js, `handleChainChanged` and
    `updateNetworkInfo`). */
module Chain {
  import Numerals
  import opened Text

  /** A JavaScript number produced by `parseInt`: an integer, or NaN when no
      digit could be read. Negative zero is identified with zero; the page
      never tells them apart. */
  datatype ChainNum = Num(n: int) | NaN

  /** The Hardhat development chain the page requires. */
  const LocalChainId: int := 1337
  /** The same id as the page passes it to `wallet_switchEthereumChain`. */
  const LocalChainHex: string := "0x539"

  // ---------------------------------------------------------------------------
  // parseInt(s, 16)
  // ---------------------------------------------------------------------------

  /** JavaScript's WhiteSpace and LineTerminator characters, which `parseInt`
      skips before reading. */
  predicate IsJsWhiteSpace(c: char)
  {
    c == '\t' || c == '\n' || c == '\U{000B}' || c == '\U{000C}' || c == '\r' || c == ' '
    || c == '\U{00A0}' || c == '\U{1680}' || ('\U{2000}' <= c <= '\U{200A}')
    || c == '\U{2028}' || c == '\U{2029}' || c == '\U{202F}' || c == '\U{205F}'
    || c == '\U{3000}' || c == '\U{FEFF}'
  }

  /** `s` with its leading white space removed. */
  function TrimStart(s: string): (t: string)
    ensures |t| <= |s| && t == s[|s| - |t|..]
    ensures |t| > 0 ==> !IsJsWhiteSpace(t[0])
    ensures forall i :: 0 <= i < |s| - |t| ==> IsJsWhiteSpace(s[i])
  {
    if |s| > 0 && IsJsWhiteSpace(s[0]) then TrimStart(s[1..]) else s
  }

  predicate IsHexDigit(c: char)
  {
    ('0' <= c <= '9') || ('a' <= c <= 'f') || ('A' <= c <= 'F')
  }

  function HexDigitValue(c: char): (d: nat)
    requires IsHexDigit(c)
    ensures d < 16
  {
    if '0' <= c <= '9' then c as int - '0' as int
    else if 'a' <= c <= 'f' then c as int - 'a' as int + 10
    else c as int - 'A' as int + 10
  }

  /** Length of the longest prefix of `s` made of hexadecimal digits. */
  function HexRun(s: string): (k: nat)
    ensures k <= |s|
    ensures forall i :: 0 <= i < k ==> IsHexDigit(s[i])
    ensures k < |s| ==> !IsHexDigit(s[k])
  {
    if |s| == 0 || !IsHexDigit(s[0]) then 0 else 1 + HexRun(s[1..])
  }

  /** The number a string of hexadecimal digits denotes. */
  function HexValue(z: string): nat
    requires forall i :: 0 <= i < |z| ==> IsHexDigit(z[i])
  {
    Numerals.Value(seq(|z|, i requires 0 <= i < |z| => HexDigitValue(z[i])), 16)
  }

  /** `s` without a leading "0x" or "0X", which radix 16 allows. */
  function StripHexPrefix(u: string): string
  {
    if |u| >= 2 && u[0] == '0' && (u[1] == 'x' || u[1] == 'X') then u[2..] else u
  }

  /** The text after an optional leading sign. */
  function Unsigned(t: string): string
  {
    if |t| > 0 && (t[0] == '-' || t[0] == '+') then t[1..] else t
  }

  /** Reads the longest run of hexadecimal digits at the start of `v`, negated
      when `negative`; NaN when there is none. */
  function ReadHexDigits(v: string, negative: bool): ChainNum
  {
    var k := HexRun(v);
    if k == 0 then NaN
    else
      var m: int := HexValue(v[..k]);
      Num(if negative then -m else m)
  }

  /** `parseInt(s, 16)`: skip white space, read an optional sign and an
      optional "0x" prefix, then the longest run of hexadecimal digits; NaN
      when that run is empty. Any text after the run is ignored. */
  function ParseInt16(s: string): ChainNum
  {
    var t := TrimStart(s);
    ReadHexDigits(StripHexPrefix(Unsigned(t)), |t| > 0 && t[0] == '-')
  }

  // ---------------------------------------------------------------------------
  // Hexadecimal rendering, the form in which providers report chain ids
  // ---------------------------------------------------------------------------

  function HexChar(d: nat): (c: char)
    requires d < 16
    ensures IsHexDigit(c) && HexDigitValue(c) == d
  {
    if d < 10 then ('0' as int + d) as char else ('a' as int + d - 10) as char
  }

  /** Lower-case hexadecimal digits of `n`, without leading zeros. */
  function Hex(n: nat): (h: string)
    ensures |h| > 0
    ensures forall i :: 0 <= i < |h| ==> IsHexDigit(h[i])
  {
    var ds := Numerals.Digits(n, 16);
    seq(|ds|, i requires 0 <= i < |ds| => HexChar(ds[i]))
  }

  /** The digits of `Hex(n)` read back to `n`. */
  lemma HexValueOfHex(n: nat)
    ensures HexValue(Hex(n)) == n
  {
    var ds := Numerals.Digits(n, 16);
    var h := Hex(n);
    assert seq(|h|, i requires 0 <= i < |h| => HexDigitValue(h[i])) == ds;
    Numerals.ValueOfDigits(n, 16);
  }

  /** Two hexadecimal digits agree up to ASCII case exactly when they have
      the same value. */
  lemma HexDigitCaseFold(c: char, d: char)
    requires IsHexDigit(c) && IsHexDigit(d)
    ensures LowerChar(c) == LowerChar(d) <==> HexDigitValue(c) == HexDigitValue(d)
  {}

  /** Two hexadecimal strings of equal length are the same ignoring case
      exactly when they denote the same number: case carries no meaning in
      a hexadecimal numeral of fixed width. */
  lemma {:induction false} HexSameIgnoringCase(a: string, b: string)
    requires |a| == |b|
    requires forall i :: 0 <= i < |a| ==> IsHexDigit(a[i])
    requires forall i :: 0 <= i < |b| ==> IsHexDigit(b[i])
    ensures SameIgnoringCase(a, b) <==> HexValue(a) == HexValue(b)
  {
    var da := seq(|a|, i requires 0 <= i < |a| => HexDigitValue(a[i]));
    var db := seq(|b|, i requires 0 <= i < |b| => HexDigitValue(b[i]));
    SameIgnoringCaseCharwise(a, b);
    forall i | 0 <= i < |a|
      ensures LowerChar(a[i]) == LowerChar(b[i]) <==> da[i] == db[i]
    {
      HexDigitCaseFold(a[i], b[i]);
    }
    assert HexValue(a) == Numerals.Value(da, 16) && HexValue(b) == Numerals.Value(db, 16);
    if HexValue(a) == HexValue(b) {
      assert forall i :: 0 <= i < |da| ==> da[i] < 16;
      assert forall i :: 0 <= i < |db| ==> db[i] < 16;
      Numerals.ValueInjective(da, db, 16);
    }
    if SameIgnoringCase(a, b) {
      assert da == db;
    }
  }

  /** The longest hex-digit prefix of a digit string followed by a non-digit
      is the digit string itself. */
  lemma {:induction false} HexRunOfDigits(h: string, tail: string)
    requires forall i :: 0 <= i < |h| ==> IsHexDigit(h[i])
    requires |tail| == 0 || !IsHexDigit(tail[0])
    ensures HexRun(h + tail) == |h|
    decreases |h|
  {
    if |h| > 0 {
      assert (h + tail)[1..] == h[1..] + tail;
      HexRunOfDigits(h[1..], tail);
    } else {
      assert h + tail == tail;
    }
  }

  /** Round trip: whatever white space precedes it and whatever non-digit text
      follows it, `parseInt("0x" + hex(n), 16)` is `n`. */
  lemma ParseHexRoundTrip(ws: string, n: nat, tail: string)
    requires forall i :: 0 <= i < |ws| ==> IsJsWhiteSpace(ws[i])
    requires |tail| == 0 || !IsHexDigit(tail[0])
    ensures ParseInt16(ws + "0x" + Hex(n) + tail) == Num(n)
  {
    var h := Hex(n);
    var body := "0x" + h + tail;
    assert ws + "0x" + h + tail == ws + body;
    TrimSkipsWhiteSpace(ws, body);
    PrefixedDigits(body, h, tail);
    HexValueOfHex(n);
  }

  /** A string "0x" + digits + non-digit text that trimming leaves alone
      parses to the value of the digits. */
  lemma PrefixedDigits(body: string, h: string, tail: string)
    requires |h| > 0 && forall i :: 0 <= i < |h| ==> IsHexDigit(h[i])
    requires |tail| == 0 || !IsHexDigit(tail[0])
    requires body == "0x" + h + tail
    requires TrimStart(body) == body
    ensures ParseInt16(body) == Num(HexValue(h))
  {
    var v := h + tail;
    assert Unsigned(body) == body;
    assert StripHexPrefix(body) == v;
    HexRunOfDigits(h, tail);
    assert v[..|h|] == h;
  }

  /** Trimming skips exactly a white-space prefix when the rest starts with a
      non-space. */
  lemma {:induction false} TrimSkipsWhiteSpace(ws: string, body: string)
    requires forall i :: 0 <= i < |ws| ==> IsJsWhiteSpace(ws[i])
    requires |body| > 0 && !IsJsWhiteSpace(body[0])
    ensures TrimStart(ws + body) == body
    decreases |ws|
  {
    if |ws| > 0 {
      assert (ws + body)[1..] == ws[1..] + body;
      TrimSkipsWhiteSpace(ws[1..], body);
    } else {
      assert ws + body == body;
    }
  }

  /** The id the page asks the wallet to switch to is the id it checks for. */
  lemma LocalChainHexIsLocalChainId()
    ensures ParseInt16(LocalChainHex) == Num(LocalChainId)
  {
    assert LocalChainHex == "" + LocalChainHex == "0x" + "539" + "";
    TrimSkipsWhiteSpace("", LocalChainHex);
    PrefixedDigits(LocalChainHex, "539", "");
    HexDigitsOfLocalChain();
  }

  /** The digits "539" form a maximal run and read as 1337. */
  lemma HexDigitsOfLocalChain()
    ensures HexRun("539") == 3
    ensures HexValue("539") == 1337
  {
    assert HexRun("539") == 3 by {
      assert "539"[1..] == "39" && "39"[1..] == "9" && "9"[1..] == "";
    }
    assert seq(3, i requires 0 <= i < 3 => HexDigitValue("539"[i])) == [5, 3, 9];
    assert Numerals.Value([5, 3, 9], 16) == 1337 by {
      assert [5, 3, 9][..2] == [5, 3] && [5, 3][..1] == [5] && [5][..0] == [];
      assert Numerals.Value([5], 16) == 5;
      assert Numerals.Value([5, 3], 16) == 83;
    }
  }

  // ---------------------------------------------------------------------------
  // Network labels (updateNetworkInfo)
  // ---------------------------------------------------------------------------

  /** `${chainId}`: how a template literal renders the number. */
  function Render(c: ChainNum): string
  {
    match c
    case NaN => "NaN"
    case Num(n) => if n < 0 then "-" + Decimal(-n) else Decimal(n)
  }

  const UnknownPrefix: string := "Unknown Network ("

  /** The label `updateNetworkInfo` writes for a chain id. */
  function NetworkName(c: ChainNum): string
  {
    if c == Num(1337) then "Local Blockchain"
    else if c == Num(1) then "Ethereum Mainnet"
    else if c == Num(3) then "Ropsten Testnet"
    else if c == Num(4) then "Rinkeby Testnet"
    else if c == Num(5) then "Goerli Testnet"
    else if c == Num(11155111) then "Sepolia Testnet"
    else UnknownPrefix + Render(c) + ")"
  }

  /** The chain ids that have a name of their own. */
  predicate IsKnownChain(c: ChainNum)
  {
    c.Num? && c.n in {1337, 1, 3, 4, 5, 11155111}
  }

  /** Whether `updateNetworkInfo` raises the "please switch to local network"
      warning: for every id other than 1337, NaN included. */
  predicate WarnsWrongNetwork(c: ChainNum)
  {
    c != Num(LocalChainId)
  }

  /** The lookup is total; an unknown id, NaN included, is labelled with its
      own rendering; and the warning is raised for every id but 1337. */
  lemma NetworkNameSpec(c: ChainNum)
    ensures IsKnownChain(c) ==> !StartsWith(NetworkName(c), UnknownPrefix)
    ensures !IsKnownChain(c) ==> NetworkName(c) == UnknownPrefix + Render(c) + ")"
    ensures NetworkName(Num(11155111)) == "Sepolia Testnet"
    ensures NetworkName(NaN) == "Unknown Network (NaN)"
  {}

  /** The first character of a rendering tells NaN, negative and
      non-negative numbers apart. */
  lemma RenderHead(c: ChainNum)
    ensures |Render(c)| > 0
    ensures Render(c)[0] == '-' <==> c.Num? && c.n < 0
    ensures IsDecimalDigit(Render(c)[0]) <==> c.Num? && c.n >= 0
  {}

  /** Distinct numbers, and NaN, render to distinct texts. */
  lemma RenderInjective(a: ChainNum, b: ChainNum)
    requires Render(a) == Render(b)
    ensures a == b
  {
    RenderHead(a);
    RenderHead(b);
    if a.Num? && b.Num? && a.n < 0 {
      assert Decimal(-a.n) == Render(a)[1..];
      DecimalInjective(-a.n, -b.n);
    } else if a.Num? && b.Num? {
      DecimalInjective(a.n, b.n);
    }
  }

  /** The label identifies the chain: different ids never share a label. */
  lemma NetworkNameInjective(a: ChainNum, b: ChainNum)
    requires NetworkName(a) == NetworkName(b)
    ensures a == b
  {
    NetworkNameSpec(a);
    NetworkNameSpec(b);
    if !IsKnownChain(a) && !IsKnownChain(b) {
      var la, lb := NetworkName(a), NetworkName(b);
      assert Render(a) == la[|UnknownPrefix|..|la| - 1];
      assert Render(b) == lb[|UnknownPrefix|..|lb| - 1];
      RenderInjective(a, b);
    }
  }
}

=== FILE: numerals.dfy ===
/** Positional numerals: the digits of a natural number in a base, and the
    value of a digit sequence. Decimal rendering of chain ids and hexadecimal
    parsing both rest on these two functions and on the round trip between them. */
module Numerals {

  /** The digits of `n` in base `b`, most significant first, without leading zeros. */
  function Digits(n: nat, b: nat): (ds: seq<nat>)
    requires b >= 2
    ensures |ds| > 0
    ensures forall i :: 0 <= i < |ds| ==> ds[i] < b
    decreases n
  {
    if n < b then [n] else QuotientSmaller(n, b); Digits(n / b, b) + [n % b]
  }

  /** Dividing by a base of at least two shrinks any number that is at least the base. */
  lemma QuotientSmaller(n: nat, b: nat)
    requires 2 <= b <= n
    ensures 0 < n / b < n
    ensures n == n / b * b + n % b
    ensures n % b < b
  {
    EuclideanDivision(n, b);
    ProductBounds(n, b, n / b, n % b);
  }

  lemma EuclideanDivision(n: nat, b: nat)
    requires 2 <= b
    ensures n == n / b * b + n % b
    ensures 0 <= n / b && n % b < b
  {}

  lemma ProductBounds(n: nat, b: nat, q: int, r: nat)
    requires 2 <= b <= n && 0 <= q && n == q * b + r && r < b
    ensures 0 < q < n
  {
    assert q * b == q * 2 + q * (b - 2);
  }

  /** The number a digit sequence denotes in base `b`, most significant digit first. */
  function Value(ds: seq<nat>, b: nat): nat
  {
    if |ds| == 0 then 0 else Value(ds[..|ds| - 1], b) * b + ds[|ds| - 1]
  }

  /** Reading back the digits of `n` gives `n`. */
  lemma {:induction false} ValueOfDigits(n: nat, b: nat)
    requires b >= 2
    ensures Value(Digits(n, b), b) == n
    decreases n
  {
    if n >= b {
      QuotientSmaller(n, b);
      var ds := Digits(n / b, b);
      ValueOfDigits(n / b, b);
      assert Digits(n, b) == ds + [n % b];
      assert (ds + [n % b])[..|ds|] == ds;
      assert Value(Digits(n, b), b) == Value(ds, b) * b + n % b;
    }
  }

  /** Distinct numbers have distinct digit sequences. */
  lemma DigitsInjective(m: nat, n: nat, b: nat)
    requires b >= 2
    requires Digits(m, b) == Digits(n, b)
    ensures m == n
  {
    ValueOfDigits(m, b);
    ValueOfDigits(n, b);
  }

  /** Quotient and remainder are unique: `p * b + r` with `r < b` determines
      both `p` and `r`. */
  lemma DivModUnique(p: nat, r: nat, q: nat, t: nat, b: nat)
    requires 0 < b && r < b && t < b
    requires p * b + r == q * b + t
    ensures p == q && r == t
  {
    if p < q {
      LargerMultiple(p, q - p, b);
    } else if q < p {
      LargerMultiple(q, p - q, b);
    }
  }

  /** Adding at least one more `b` to a multiple of `b` adds at least `b`. */
  lemma LargerMultiple(p: nat, d: nat, b: nat)
    requires d >= 1
    ensures (p + d) * b >= p * b + b
  {
    assert (p + d) * b == p * b + d * b;
    assert d * b == b + (d - 1) * b;
  }

  /** Two digit sequences of equal length with the same value are equal. */
  lemma {:induction false} ValueInjective(xs: seq<nat>, ys: seq<nat>, b: nat)
    requires b >= 2 && |xs| == |ys|
    requires forall i :: 0 <= i < |xs| ==> xs[i] < b
    requires forall i :: 0 <= i < |ys| ==> ys[i] < b
    requires Value(xs, b) == Value(ys, b)
    ensures xs == ys
    decreases |xs|
  {
    if |xs| > 0 {
      var n := |xs| - 1;
      DivModUnique(Value(xs[..n], b), xs[n], Value(ys[..n], b), ys[n], b);
      ValueInjective(xs[..n], ys[..n], b);
      assert xs == xs[..n] + [xs[n]];
      assert ys == ys[..n] + [ys[n]];
    }
  }
}

=== FILE: session.dfy ===
/** The wallet session of the page (frontend/js/app.js): the module-level
    variables `web3`, `contract` and `currentAccount`, the connection-status
    label, the network label, the enabled state of the contract buttons and
    of the connect button, and the debounce timestamp of the account handler,
    gathered into one immutable record. Every handler becomes a pure
    transition; what the wallet provider, the clock and the ABI fetch return
    is passed in, and every outbound request is listed as an effect. */
module Session {
  import opened Wrappers
  import opened Chain

  /** The connection-status label (`connectionStatus.textContent`). The page
      also writes "Switching account..." while adopting a new account, but it
      overwrites it with "Connected" in the same synchronous step, so no
      handler ever leaves it showing. */
  datatype Status =
    | Initial           // whatever the page shows before initApp runs
    | NotDetected       // "Connection: MetaMask not detected"
    | NotConnected      // "Connection: Not Connected"
    | Connected         // "Connection: Connected"
    | SwitchingNetwork  // "Connection: Switching network..."
    | WrongNetwork      // "Connection: Please switch to local network"

  /** Messages shown through `showResult`. */
  datatype Notice =
    | InstallWallet      // no injected provider
    | ConnectFailed      // eth_requestAccounts or eth_chainId threw
    | SwitchManually     // wallet_switchEthereumChain threw
    | ContractLoadFailed // the ABI fetch or the contract construction threw

  /** Requests the page sends out, in order. */
  datatype Effect =
    | RequestAccounts          // eth_requestAccounts
    | QueryChainId             // web3.eth.getChainId()
    | SwitchChain(hex: string) // wallet_switchEthereumChain
    | FetchAbi                 // fetch of the ABI and construction of the contract handle
    | Show(notice: Notice)

  datatype Session = Session(
    web3: bool,                     // a Web3 instance exists
    contract: bool,                 // a contract handle is bound
    account: Option<string>,        // currentAccount, verbatim as the provider gave it
    status: Status,
    network: string,                // networkName.textContent
    buttonsEnabled: bool,           // the contract-action buttons are enabled
    walletShown: bool,              // wallet panel shown, connect button hidden
    connectBusy: bool,              // connect button disabled and showing its spinner
    lastAccountChange: Option<int>) // the debounce timestamp, in milliseconds

  /** A transition's result: the new session and the requests it issued. */
  datatype Step = Step(session: Session, effects: seq<Effect>)

  /** Minimum spacing, in milliseconds, between two accepted account changes. */
  const DebounceWindow: int := 300

  /** The session before `initApp` runs: nothing bound, nothing shown. */
  const Start: Session := Session(false, false, None, Initial, "", false, false, false, None)

  /** JavaScript truthiness of `currentAccount`: null and the empty string are
      both false. */
  predicate HoldsAccount(s: Session)
  {
    s.account.Some? && s.account.value != ""
  }

  /** The state every disconnect produces from `s`: what `disconnectWallet`
      leaves untouched is the Web3 instance, the network label and the
      debounce timestamp. */
  predicate IsDisconnectedFrom(r: Session, s: Session)
  {
    && r.account == None && !r.contract && r.status == NotConnected
    && !r.buttonsEnabled && !r.walletShown && !r.connectBusy
    && r.web3 == s.web3 && r.network == s.network
    && r.lastAccountChange == s.lastAccountChange
  }

  // ---------------------------------------------------------------------------
  // disconnectWallet
  // ---------------------------------------------------------------------------

  /** `disconnectWallet`: drop the account and the contract handle, show the
      connect button, disable every contract action. */
  function Disconnect(s: Session): (r: Session)
    ensures IsDisconnectedFrom(r, s)
    ensures !HoldsAccount(r)
  {
    s.(account := None, contract := false, status := NotConnected,
       buttonsEnabled := false, walletShown := false, connectBusy := false)
  }

  /** Disconnecting twice is disconnecting once, and the result depends on the
      prior session only through what disconnect keeps. */
  lemma DisconnectIdempotent(s: Session, t: Session)
    ensures Disconnect(Disconnect(s)) == Disconnect(s)
    ensures IsDisconnectedFrom(t, s) <==> t == Disconnect(s)
  {}

  // ---------------------------------------------------------------------------
  // initContract
  // ---------------------------------------------------------------------------

  /** `initContract`, with the outcome of the ABI fetch and of the contract
      construction as `loadOk`. Without Web3 nothing happens. Otherwise the
      ABI is fetched afresh (there is no cache); on success a new handle is
      bound and the actions are enabled, on failure a notice is shown and the
      previous handle, if any, stays. */
  function InitContract(s: Session, loadOk: bool): (r: Step)
    ensures !s.web3 ==> r == Step(s, [])
    ensures s.web3 ==> |r.effects| > 0 && r.effects[0] == FetchAbi
    ensures s.web3 && loadOk ==> r.session.contract && r.session.buttonsEnabled
    ensures !loadOk ==> r.session == s
    ensures r.session.account == s.account && r.session.status == s.status
    ensures r.session.lastAccountChange == s.lastAccountChange
    ensures r.session.(contract := s.contract, buttonsEnabled := s.buttonsEnabled) == s
  {
    if !s.web3 then Step(s, [])
    else if loadOk then Step(s.(contract := true, buttonsEnabled := true), [FetchAbi])
    else Step(s, [FetchAbi, Show(ContractLoadFailed)])
  }

  // ---------------------------------------------------------------------------
  // handleAccountsChanged
  // ---------------------------------------------------------------------------

  /** The debounce guard: the event is dropped when a truthy timestamp exists
      and less than the window has elapsed since it. A zero timestamp is
      falsy in JavaScript and never debounces; a clock that went backwards
      gives a negative difference, which is dropped. */
  predicate Debounced(last: Option<int>, now: int)
  {
    last.Some? && last.value != 0 && now - last.value < DebounceWindow
  }

  /** `handleAccountsChanged(accounts)` at time `now`, where `loadOk` is the
      outcome of the contract load it starts. */
  function HandleAccountsChanged(s: Session, accounts: seq<string>, now: int, loadOk: bool): (r: Step)
    // a dropped event changes nothing, not even the timestamp
    ensures Debounced(s.lastAccountChange, now) ==> r == Step(s, [])
    ensures !Debounced(s.lastAccountChange, now) ==> r.session.lastAccountChange == Some(now)
    // an accepted empty list is exactly a disconnect
    ensures !Debounced(s.lastAccountChange, now) && |accounts| == 0 ==>
      IsDisconnectedFrom(r.session, s.(lastAccountChange := Some(now))) && r.effects == []
    // an accepted non-empty list adopts its first address verbatim
    ensures !Debounced(s.lastAccountChange, now) && |accounts| > 0 ==>
      && r.session.account == Some(accounts[0])
      && r.session.status == Connected
      && r.session.walletShown
      && r.session.connectBusy == s.connectBusy
      && r.session.web3 == s.web3
      && r.session.network == s.network
      && (s.web3 ==> |r.effects| > 0 && r.effects[0] == FetchAbi)
      && (s.web3 && loadOk ==> r.session.contract)
      && (!(s.web3 && loadOk) ==> r.session.contract == s.contract)
      && r.session.buttonsEnabled == (if s.web3 && loadOk then true else s.buttonsEnabled)
  {
    if Debounced(s.lastAccountChange, now) then Step(s, [])
    else
      var stamped := s.(lastAccountChange := Some(now));
      if |accounts| > 0 then
        InitContract(stamped.(account := Some(accounts[0]), walletShown := true, status := Connected), loadOk)
      else
        Step(Disconnect(stamped), [])
  }

  /** Re-reporting the account already held still refetches the ABI and
      rebinds the contract: the handler does not compare addresses. */
  lemma SameAccountStillRebinds(s: Session, accounts: seq<string>, now: int, loadOk: bool)
    requires s.web3 && |accounts| > 0 && s.account == Some(accounts[0])
    requires !Debounced(s.lastAccountChange, now)
    ensures |HandleAccountsChanged(s, accounts, now, loadOk).effects| > 0
    ensures HandleAccountsChanged(s, accounts, now, loadOk).effects[0] == FetchAbi
    ensures HandleAccountsChanged(s, accounts, now, loadOk).session.account == s.account
  {}

  // ---------------------------------------------------------------------------
  // handleChainChanged and updateNetworkInfo
  // ---------------------------------------------------------------------------

  /** `updateNetworkInfo(chainId)`: write the network label, and raise the
      wrong-network status for every id except 1337, which leaves the status
      as it was. */
  function UpdateNetworkInfo(s: Session, c: ChainNum): (r: Session)
    ensures r.network == NetworkName(c)
    ensures WarnsWrongNetwork(c) ==> r.status == WrongNetwork
    ensures !WarnsWrongNetwork(c) ==> r.status == s.status
    ensures r.(network := s.network, status := s.status) == s
  {
    var labelled := s.(network := NetworkName(c));
    if c != Num(LocalChainId) then labelled.(status := WrongNetwork) else labelled
  }

  /** The synchronous part of `handleChainChanged`: the status shows the
      switch in progress. */
  function BeginChainChange(s: Session): (r: Session)
    ensures r.status == SwitchingNetwork
    ensures r.(status := s.status) == s
  {
    s.(status := SwitchingNetwork)
  }

  /** The delayed part of `handleChainChanged` for the parsed id `c`: update
      the network information, then, only when an account is held, recreate
      Web3 and reinitialise the contract. */
  function SettleChainChange(s: Session, c: ChainNum, loadOk: bool): (r: Step)
    ensures r.session.account == s.account
    ensures r.session.network == NetworkName(c)
    ensures r.session.lastAccountChange == s.lastAccountChange
    ensures HoldsAccount(s) ==> |r.effects| > 0 && r.effects[0] == FetchAbi
    ensures HoldsAccount(s) && loadOk ==> r.session.contract
    ensures !HoldsAccount(s) ==> r == Step(UpdateNetworkInfo(s, c), [])
    // apart from the rebind, the session is exactly what updateNetworkInfo leaves
    ensures r.session.(contract := s.contract, buttonsEnabled := s.buttonsEnabled, web3 := s.web3)
      == UpdateNetworkInfo(s, c)
  {
    var updated := UpdateNetworkInfo(s, c);
    if HoldsAccount(updated) then InitContract(updated.(web3 := true), loadOk) else Step(updated, [])
  }

  /** `handleChainChanged(hex)` with both parts run back to back. */
  function HandleChainChanged(s: Session, hex: string, loadOk: bool): (r: Step)
    ensures r.session.account == s.account
    ensures r.session.network == NetworkName(ParseInt16(hex))
    ensures WarnsWrongNetwork(ParseInt16(hex)) ==> r.session.status == WrongNetwork
    ensures !WarnsWrongNetwork(ParseInt16(hex)) ==> r.session.status == SwitchingNetwork
    ensures HoldsAccount(s) <==> (|r.effects| > 0 && r.effects[0] == FetchAbi)
  {
    SettleChainChange(BeginChainChange(s), ParseInt16(hex), loadOk)
  }

  /** A chain change never disconnects: the account survives, a bound contract
      stays bound, and the wallet panel stays shown, whatever the new chain
      and whether or not the contract reload succeeds. */
  lemma ChainChangeNeverDisconnects(s: Session, hex: string, loadOk: bool)
    ensures HandleChainChanged(s, hex, loadOk).session.account == s.account
    ensures s.contract ==> HandleChainChanged(s, hex, loadOk).session.contract
    ensures HandleChainChanged(s, hex, loadOk).session.walletShown == s.walletShown
  {}

  /** Switching to the local chain leaves the status reading "Switching
      network...": `updateNetworkInfo` only ever writes the warning, and
      reinitialising the contract writes no status. */
  lemma LocalChainKeepsSwitchingLabel(s: Session, loadOk: bool)
    ensures HandleChainChanged(s, LocalChainHex, loadOk).session.status == SwitchingNetwork
    ensures HandleChainChanged(s, LocalChainHex, loadOk).session.network == "Local Blockchain"
  {
    LocalChainHexIsLocalChainId();
  }

  // ---------------------------------------------------------------------------
  // initApp
  // ---------------------------------------------------------------------------

  /** `initApp`: with a provider, create Web3, show the disconnected panel and,
      when `eth_chainId` answered, the network information; without one,
      show the install notice and the "not detected" status. */
  function InitApp(s: Session, providerPresent: bool, chainId: Option<int>): (r: Step)
    ensures r.session.web3 == (providerPresent || s.web3)
    ensures !r.session.buttonsEnabled && !r.session.walletShown
    ensures !providerPresent ==> r.session.status == NotDetected && r.effects == [Show(InstallWallet)]
    ensures providerPresent && chainId.Some? ==> r.session.network == NetworkName(Num(chainId.value))
    ensures providerPresent ==>
      r.session.status == (if chainId.Some? && chainId.value != LocalChainId then WrongNetwork else s.status)
    ensures r.session.account == s.account && r.session.contract == s.contract
    ensures r.session.lastAccountChange == s.lastAccountChange && r.session.connectBusy == s.connectBusy
    ensures !(providerPresent && chainId.Some?) ==> r.session.network == s.network
  {
    if providerPresent then
      var shown := s.(web3 := true, walletShown := false, buttonsEnabled := false);
      if chainId.Some? then Step(UpdateNetworkInfo(shown, Num(chainId.value)), [QueryChainId])
      else Step(shown, [QueryChainId])
    else
      Step(s.(status := NotDetected, walletShown := false, buttonsEnabled := false), [Show(InstallWallet)])
  }

  // ---------------------------------------------------------------------------
  // connectWallet
  // ---------------------------------------------------------------------------

  /** What the provider answers during `connectWallet`: whether a provider is
      injected; the accounts granted (None when the request threw); the chain
      id (None when the query threw); whether the switch to 1337 succeeded;
      the clock; and the outcome of the contract load. */
  datatype ConnectReply = ConnectReply(
    providerPresent: bool,
    accounts: Option<seq<string>>,
    chainId: Option<int>,
    switchOk: bool,
    now: int,
    loadOk: bool)

  /** Whether `connectWallet` itself hands the accounts to
      `handleAccountsChanged`: only when the chain is not 1337, the switch
      failed and at least one account was granted. In every other case the
      page waits for the provider's own `accountsChanged` event. */
  predicate AdoptsDirectly(p: ConnectReply)
  {
    && p.providerPresent && p.accounts.Some? && p.chainId.Some?
    && p.chainId.value != LocalChainId && !p.switchOk && |p.accounts.value| > 0
  }

  /** The delayed `finally` of `connectWallet`: the connect button is restored
      unless an account is now held. */
  function RestoreConnectButton(s: Session): (r: Session)
    ensures r.connectBusy == (s.connectBusy && HoldsAccount(s))
    ensures r.(connectBusy := s.connectBusy) == s
  {
    if HoldsAccount(s) then s else s.(connectBusy := false)
  }

  /** `connectWallet`, with the delayed `finally` run at the end. */
  function ConnectWallet(s: Session, p: ConnectReply): (r: Step)
    ensures !p.providerPresent ==> r == Step(s, [Show(InstallWallet)])
    ensures p.providerPresent ==> r.session.web3 && |r.effects| > 0 && r.effects[0] == RequestAccounts
    ensures p.providerPresent ==> r.session.connectBusy == HoldsAccount(r.session)
    ensures !AdoptsDirectly(p) ==>
      && r.session.account == s.account && r.session.contract == s.contract
      && r.session.status == s.status
      && r.session.lastAccountChange == s.lastAccountChange
    ensures AdoptsDirectly(p) && !Debounced(s.lastAccountChange, p.now) ==>
      && r.session.account == Some(p.accounts.value[0])
      && r.session.status == Connected
      && Show(SwitchManually) in r.effects && FetchAbi in r.effects
    // without direct adoption only Web3 and the connect button change
    ensures p.providerPresent && !AdoptsDirectly(p) ==>
      r.session == s.(web3 := true, connectBusy := HoldsAccount(s))
    // with it, the session is the account handler's, followed by the delayed finally
    ensures AdoptsDirectly(p) ==>
      r.session == RestoreConnectButton(
        HandleAccountsChanged(s.(connectBusy := true, web3 := true), p.accounts.value, p.now, p.loadOk).session)
  {
    if !p.providerPresent then Step(s, [Show(InstallWallet)])
    else
      var busy := s.(connectBusy := true, web3 := true);
      var step :=
        if p.accounts.None? then Step(busy, [RequestAccounts, Show(ConnectFailed)])
        else if p.chainId.None? then Step(busy, [RequestAccounts, QueryChainId, Show(ConnectFailed)])
        else if p.chainId.value == LocalChainId then Step(busy, [RequestAccounts, QueryChainId])
        else
          var asked := [RequestAccounts, QueryChainId, SwitchChain(LocalChainHex)];
          if p.switchOk then Step(busy, asked)
          else if |p.accounts.value| > 0 then
            var adopted := HandleAccountsChanged(busy, p.accounts.value, p.now, p.loadOk);
            Step(adopted.session, asked + [Show(SwitchManually)] + adopted.effects)
          else Step(busy, asked + [Show(SwitchManually)]);
      Step(RestoreConnectButton(step.session), step.effects)
  }

  /** On the local chain, or after a successful switch, `connectWallet` leaves
      the account, the contract and the status alone, whatever accounts the
      provider granted. */
  lemma ConnectOnLocalChainWaitsForEvent(s: Session, p: ConnectReply)
    requires p.providerPresent && p.accounts.Some? && p.chainId.Some?
    requires p.chainId.value == LocalChainId || p.switchOk
    ensures ConnectWallet(s, p).session.account == s.account
    ensures ConnectWallet(s, p).session.contract == s.contract
    ensures ConnectWallet(s, p).session.status == s.status
  {}
}

=== FILE: text.dfy ===
/** String helpers with JavaScript's meaning: `startsWith`, `includes`,
    `length` (counted in UTF-16 code units), ASCII `toLowerCase`, and decimal
    rendering of numbers as template literals produce it. */
module Text {
  import Numerals

  /** `s.startsWith(p)`. */
  predicate StartsWith(s: string, p: string)
  {
    |p| <= |s| && s[..|p|] == p
  }

  /** `s.includes(p)`: `p` occurs at some position of `s`. */
  predicate Contains(s: string, p: string)
  {
    exists i :: 0 <= i && i + |p| <= |s| && StartsWith(s[i..], p)
  }

  /** Number of UTF-16 code units needed for one character: characters outside
      the Basic Multilingual Plane take a surrogate pair. */
  function CodeUnits(c: char): nat
  {
    if c as int > 0xFFFF then 2 else 1
  }

  /** JavaScript's `s.length`: the number of UTF-16 code units of `s`. */
  function Utf16Length(s: string): (n: nat)
    ensures |s| <= n <= 2 * |s|
  {
    if |s| == 0 then 0 else Utf16Length(s[..|s| - 1]) + CodeUnits(s[|s| - 1])
  }

  /** A string of Basic Multilingual Plane characters has one code unit per character. */
  lemma {:induction false} Utf16LengthOfBmp(s: string)
    requires forall i :: 0 <= i < |s| ==> s[i] as int <= 0xFFFF
    ensures Utf16Length(s) == |s|
  {
    if |s| > 0 {
      Utf16LengthOfBmp(s[..|s| - 1]);
    }
  }

  function LowerChar(c: char): char
  {
    if 'A' <= c <= 'Z' then (c as int + 32) as char else c
  }

  /** `s.toLowerCase()` restricted to ASCII letters. */
  function Lower(s: string): (r: string)
    ensures |r| == |s|
    ensures forall i :: 0 <= i < |s| ==> r[i] == LowerChar(s[i])
  {
    seq(|s|, i requires 0 <= i < |s| => LowerChar(s[i]))
  }

  /** Comparing `a.toLowerCase()` with `b.toLowerCase()`. */
  predicate SameIgnoringCase(a: string, b: string)
  {
    Lower(a) == Lower(b)
  }

  /** Two strings are the same ignoring case exactly when they have the same
      length and agree at every position up to ASCII case. */
  lemma SameIgnoringCaseCharwise(a: string, b: string)
    ensures SameIgnoringCase(a, b) <==>
      (|a| == |b| && forall i :: 0 <= i < |a| ==> LowerChar(a[i]) == LowerChar(b[i]))
  {}

  function DecimalChar(d: nat): char
    requires d < 10
  {
    ('0' as int + d) as char
  }

  predicate IsDecimalDigit(c: char)
  {
    '0' <= c <= '9'
  }

  /** The decimal rendering of a natural number, as `${n}` produces it. */
  function Decimal(n: nat): (s: string)
    ensures |s| > 0
    ensures forall i :: 0 <= i < |s| ==> IsDecimalDigit(s[i])
  {
    var ds := Numerals.Digits(n, 10);
    seq(|ds|, i requires 0 <= i < |ds| => DecimalChar(ds[i]))
  }

  /** Distinct numbers render differently. */
  lemma DecimalInjective(m: nat, n: nat)
    requires Decimal(m) == Decimal(n)
    ensures m == n
  {
    var dm, dn := Numerals.Digits(m, 10), Numerals.Digits(n, 10);
    assert |dm| == |Decimal(m)| && |dn| == |Decimal(n)|;
    forall i | 0 <= i < |dm|
      ensures dm[i] == dn[i]
    {
      assert Decimal(m)[i] == DecimalChar(dm[i]);
      assert Decimal(n)[i] == DecimalChar(dn[i]);
    }
    assert dm == dn;
    Numerals.DigitsInjective(m, n, 10);
  }
}

=== FILE: trace.dfy ===
/** Runs of the page: `initApp` followed by any sequence of user clicks and
    provider notifications, each handled to completion before the next (the
    delayed halves of `handleChainChanged` are events of their own, so other
    events may fall between the two halves). Properties that span several
    events are stated over these runs. */
module Trace {
  import opened Wrappers
  import opened Chain
  import opened Session

  datatype Event =
    | ConnectClicked(reply: ConnectReply)
    | DisconnectClicked
    | AccountsChanged(accounts: seq<string>, now: int, loadOk: bool)
    | ChainChangeStarted
    | ChainChangeSettled(hex: string, loadOk: bool)

  /** The session after handling one event. */
  function Apply(s: Session, e: Event): Session
  {
    match e
    case ConnectClicked(reply) => ConnectWallet(s, reply).session
    case DisconnectClicked => Disconnect(s)
    case AccountsChanged(accounts, now, loadOk) => HandleAccountsChanged(s, accounts, now, loadOk).session
    case ChainChangeStarted => BeginChainChange(s)
    case ChainChangeSettled(hex, loadOk) => SettleChainChange(s, ParseInt16(hex), loadOk).session
  }

  /** The session after handling `es` in order. */
  function Run(s: Session, es: seq<Event>): Session
    decreases |es|
  {
    if |es| == 0 then s else Run(Apply(s, es[0]), es[1..])
  }

  /** What holds between events of every run: a contract is bound only with
      Web3 and with an account recorded; the contract buttons are enabled
      exactly when a contract is bound; the wallet panel is shown exactly
      when an account is recorded. */
  predicate Consistent(s: Session)
  {
    && (s.contract ==> s.web3 && s.account.Some?)
    && s.buttonsEnabled == s.contract
    && s.walletShown == s.account.Some?
  }

  lemma InitAppIsConsistent(providerPresent: bool, chainId: Option<int>)
    ensures Consistent(InitApp(Start, providerPresent, chainId).session)
  {}

  lemma ApplyKeepsConsistent(s: Session, e: Event)
    requires Consistent(s)
    ensures Consistent(Apply(s, e))
  {
    match e
    case ConnectClicked(reply) => ConnectKeepsConsistent(s, reply);
    case DisconnectClicked =>
    case AccountsChanged(accounts, now, loadOk) => AccountsChangedKeepsConsistent(s, accounts, now, loadOk);
    case ChainChangeStarted =>
    case ChainChangeSettled(hex, loadOk) => SettleKeepsConsistent(s, ParseInt16(hex), loadOk);
  }

  lemma AccountsChangedKeepsConsistent(s: Session, accounts: seq<string>, now: int, loadOk: bool)
    requires Consistent(s)
    ensures Consistent(HandleAccountsChanged(s, accounts, now, loadOk).session)
  {}

  lemma SettleKeepsConsistent(s: Session, id: ChainNum, loadOk: bool)
    requires Consistent(s)
    ensures Consistent(SettleChainChange(s, id, loadOk).session)
  {}

  lemma ConnectKeepsConsistent(s: Session, reply: ConnectReply)
    requires Consistent(s)
    ensures Consistent(ConnectWallet(s, reply).session)
  {}

  /** Every session reachable from `initApp` is consistent. */
  lemma {:induction false} RunKeepsConsistent(s: Session, es: seq<Event>)
    requires Consistent(s)
    ensures Consistent(Run(s, es))
    decreases |es|
  {
    if |es| > 0 {
      ApplyKeepsConsistent(s, es[0]);
      RunKeepsConsistent(Apply(s, es[0]), es[1..]);
    }
  }

  lemma {:induction false} ReachableIsConsistent(providerPresent: bool, chainId: Option<int>, es: seq<Event>)
    ensures Consistent(Run(InitApp(Start, providerPresent, chainId).session, es))
  {
    InitAppIsConsistent(providerPresent, chainId);
    RunKeepsConsistent(InitApp(Start, providerPresent, chainId).session, es);
  }

  // ---------------------------------------------------------------------------
  // Debounce
  // ---------------------------------------------------------------------------

  /** A burst: account notifications all stamped less than the debounce window
      after the accepted one at `t`. */
  predicate WithinWindow(es: seq<Event>, t: int)
  {
    forall i :: 0 <= i < |es| ==> es[i].AccountsChanged? && es[i].now - t < DebounceWindow
  }

  /** Once an event is accepted at a truthy time `t`, a burst inside the window
      changes nothing at all: the window is measured from the accepted event,
      and dropped events do not move it. */
  lemma {:induction false} BurstIgnored(s: Session, es: seq<Event>, t: int)
    requires s.lastAccountChange == Some(t) && t != 0
    requires WithinWindow(es, t)
    ensures Run(s, es) == s
    decreases |es|
  {
    if |es| > 0 {
      assert Apply(s, es[0]) == s;
      BurstIgnored(s, es[1..], t);
    }
  }

  /** Only the first accepted event of a burst has an effect: the session
      after the whole burst is the session after that event alone. */
  lemma FirstAcceptedWins(s: Session, accounts: seq<string>, now: int, loadOk: bool, es: seq<Event>)
    requires now != 0 && !Debounced(s.lastAccountChange, now)
    requires WithinWindow(es, now)
    ensures Run(s, [AccountsChanged(accounts, now, loadOk)] + es)
         == HandleAccountsChanged(s, accounts, now, loadOk).session
  {
    var first := [AccountsChanged(accounts, now, loadOk)] + es;
    assert first[0] == AccountsChanged(accounts, now, loadOk) && first[1..] == es;
    BurstIgnored(HandleAccountsChanged(s, accounts, now, loadOk).session, es, now);
  }

  // ---------------------------------------------------------------------------
  // Disconnect
  // ---------------------------------------------------------------------------

  predicate AllDisconnects(es: seq<Event>)
  {
    forall i :: 0 <= i < |es| ==> es[i].DisconnectClicked?
  }

  /** Pressing disconnect any positive number of times, from any session,
      yields the same session as pressing it once. */
  lemma {:induction false} RepeatedDisconnect(s: Session, es: seq<Event>)
    requires |es| > 0 && AllDisconnects(es)
    ensures Run(s, es) == Disconnect(s)
    decreases |es|
  {
    if |es| > 1 {
      RepeatedDisconnect(Disconnect(s), es[1..]);
      DisconnectIdempotent(s, s);
    } else {
      assert Run(s, es) == Run(Disconnect(s), es[1..]);
    }
  }

  /** An accepted empty account list leaves the same session as pressing
      disconnect, apart from the timestamp it records. */
  lemma EmptyAccountsIsDisconnect(s: Session, now: int, loadOk: bool)
    requires !Debounced(s.lastAccountChange, now)
    ensures Apply(s, AccountsChanged([], now, loadOk))
         == Disconnect(s).(lastAccountChange := Some(now))
  {}
}

=== FILE: validation.dfy ===
/** The per-keystroke input check the page installs on every text and number
    field (frontend/js/app.js, `validateInputs`): an address field whose value
    is obviously not an address, and a number field holding a negative number,
    are marked invalid; the mark is cosmetic and blocks nothing. */
module Validation {
  import opened Text

  /** The word "address" as the page's placeholders spell it ("地址"); a field
      whose placeholder contains it is checked as an address. */
  const AddressMarker: string := "\U{5730}\U{5740}"

  /** Length of a well-formed address: "0x" and forty hexadecimal digits. */
  const AddressLength: nat := 42

  /** One input field at the moment of an `input` event. `isNumber` is
      `type === 'number'`; `number` is what JavaScript's `<` compares for
      `value`, the browser having already reduced a number field's text to a
      valid numeral or to the empty string. */
  datatype Field = Field(placeholder: string, isNumber: bool, value: string, number: real)

  predicate IsAddressField(f: Field)
  {
    Contains(f.placeholder, AddressMarker)
  }

  /** The address test: flagged when the value is non-empty, lacks the "0x"
      prefix, and is not 42 code units long. All three must hold. */
  predicate AddressFlagged(value: string)
  {
    value != "" && !StartsWith(value, "0x") && Utf16Length(value) != AddressLength
  }

  /** The number test: flagged when the value is non-empty and negative. */
  predicate NumberFlagged(f: Field)
  {
    f.value != "" && f.number < 0.0
  }

  /** Whether the field carries the `invalid-input` mark after an `input`
      event, given whether it carried it before. The address test runs first
      and the number test second, so on a field subject to both the number
      test decides; a field subject to neither keeps its mark. */
  function MarkAfterInput(f: Field, marked: bool): (r: bool)
    ensures f.isNumber ==> (r <==> NumberFlagged(f))
    ensures !f.isNumber && IsAddressField(f) ==> (r <==> AddressFlagged(f.value))
    ensures !f.isNumber && !IsAddressField(f) ==> r == marked
  {
    var afterAddress := if IsAddressField(f) then AddressFlagged(f.value) else marked;
    if f.isNumber then NumberFlagged(f) else afterAddress
  }

  /** The address test is loose: any value starting with "0x" passes, whatever
      follows, and so does any value of exactly 42 code units, whatever it
      holds; only values failing both are flagged. */
  lemma AddressTestIsLoose(value: string)
    ensures StartsWith(value, "0x") ==> !AddressFlagged(value)
    ensures Utf16Length(value) == AddressLength ==> !AddressFlagged(value)
    ensures value == "" ==> !AddressFlagged(value)
  {}

  /** A 42-character string of Basic Multilingual Plane characters passes the
      address test, even without the "0x" prefix. */
  lemma FortyTwoCharactersPass(value: string)
    requires |value| == AddressLength
    requires forall i :: 0 <= i < |value| ==> value[i] as int <= 0xFFFF
    ensures !AddressFlagged(value)
  {
    Utf16LengthOfBmp(value);
  }

  /** Marking is idempotent: a second identical `input` event leaves the mark
      as the first one set it. */
  lemma MarkIsIdempotent(f: Field, marked: bool)
    ensures MarkAfterInput(f, MarkAfterInput(f, marked)) == MarkAfterInput(f, marked)
  {}
}

=== FILE: wrappers.dfy ===
/** The optional-value datatype used across the model, in place of JavaScript's
    `null`/`undefined` and of a call that threw. */
module Wrappers {

  datatype Option<+T> = None | Some(value: T)
}
